=== FILE: README.md ===
# potassium: a Dafny model of the player's control logic

potassium is a small Clutter front end for the mozart playback library. This
project models the logic in `potassium.c` that does not depend on drawing or
on the library's internals:

- **Modes and icons.** `toggle_repeat`, `toggle_shuffle` and
  `set_status_icons`, together with the visibility `init_icons` sets up. The
  library keeps repeat-single, repeat-all and shuffle as three independent
  flags. The player keeps the two repeat flags apart by hand, so "never both
  repeat modes" is an invariant the transitions preserve (module `Modes`).
- **Key handling.** `input_events_cb` maps a key press to at most one command
  (module `KeyDispatch`). Module `Session` follows the player over a run of key
  presses and pipeline state changes and proves that the icons keep showing
  the modes.
- **The time line.** `get_position` prints `H:MM:SS / H:MM:SS` into a 22-byte
  buffer (module `TimeFormat`, over printf conversions in module `Decimal`).
- **The checkpoint file.** `write_checkpoint_data` writes the playlist name,
  the 1-based position and the stream offset as three lines.
  `read_checkpoint_data` reads them back with `fgets` into a 512-byte buffer,
  `g_strchomp`, `atoi` and `atoll`. It then resumes the written track,
  turning the 1-based position into a 0-based index.
  `generate_playlist` recreates the playlist (module `Checkpoint`, over string
  helpers in module `Text`).

Calls into the playback library are values: the player state is a parameter,
the mode flags are a `Flags` record, and the library calls made on resume are
a list of `EngineCall`s (module `Engine`). The checkpoint file is an
`Option<string>`: `None` means there is no file. Each character of a model
string stands for one byte, so every length and buffer limit counts bytes.
A playlist name the library reports is a byte string (`Text.IsByteString`).
C's `atoi`/`atoll` and printf's `%d`, `%.2d` and `%lu` are written out
character by character.

The model keeps four choices that follow directly from `potassium.c`:

- Repeat is two independent booleans, not a single three-valued mode.
  Exclusion is therefore an invariant, and the three-valued mode is kept as
  a reference that `ToggleRepeat` is proved to refine.
- `set_status_icons` hides a repeat icon whose flag is off. It does not clear
  repeat-single on a track change.
- The time line prints whatever duration the library reports. The code keeps
  no last-known duration.
- The reader does no validation. A malformed record is parsed by `atoi` and
  `atoll` as it stands, and only a missing or empty file is an error.

## Model

| member | source | states |
|---|---|---|
| Modes.ToggleRepeat | potassium.c:229-270 | Shuffle and the play, pause and shuffle icons are untouched. A type other than "single" or "all" changes nothing. Repeat-single and repeat-all are never both on afterwards if they were not before. From such flags, both repeat icons show exactly the new flags after "single" or "all". |
| Modes.ToggleRepeatScenarios | potassium.c:237-269 | "single" from repeat-all gives repeat-single alone, and "all" from repeat-single gives repeat-all alone. Pressing "single" twice, or "all" twice, from no repeat returns to no repeat with both repeat icons hidden. |
| Modes.ToggleRepeatNeedsExclusive | potassium.c:237-244 | The exclusion matters. If both flags were on, "single" turns both off but leaves the repeat-single icon shown. |
| Modes.ToggleRepeatRefinesModes | potassium.c:229-270 | On exclusive flags, toggle_repeat behaves as a three-valued repeat mode (off, single, all). Choosing the current mode turns repeat off, and choosing any other mode switches to it. The two repeat icons show exactly the resulting mode. |
| Modes.ToggleShuffle | potassium.c:273-287 | The shuffle flag flips. The shuffle icon then shows the new flag. No other flag or icon changes. |
| Modes.ToggleShuffleTwice | potassium.c:273-287 | Suppose the shuffle icon already shows the shuffle flag. Then toggling shuffle twice restores both the flags and the icons. |
| Modes.TogglesKeepIconsShowingModes | potassium.c:229-287 | Suppose the repeat flags exclude each other and the icons show the flags. Then after any repeat toggle, or after a shuffle toggle, both of these still hold. |
| Modes.SetStatusIcons | potassium.c:189-226 | The play icon is shown exactly when the pipeline is PLAYING, and pause exactly when it is not. A repeat icon whose flag is off is hidden. Otherwise the repeat icons stay as they were, because this function only ever hides them. The shuffle icon is untouched. |
| Modes.InitialIcons | potassium.c:290-333 | At start-up each mode icon is shown exactly when its flag is on, and play and pause are both hidden. |
| KeyDispatch.Dispatch | potassium.c:139-182 | An event that is not a key press does nothing. A key press gives a command exactly when its key is one of the eleven mapped keys. The command is Quit exactly for Escape and q. |
| KeyDispatch.DispatchDistinct | potassium.c:148-181 | Apart from the two quit keys, no two keys give the same command, and every command has a key. |
| KeyDispatch.DispatchMatchesBindings | potassium.c:148-181 | Dispatch agrees with an independent table of (key, command) rows, in both directions. A key missing from the table gives no command. |
| Session.Start | potassium.c:290-333 | Suppose the library's initial repeat flags exclude each other. Then the player right after `init_icons` is running and consistent: the flags are the library's, the icons show the modes, and play and pause are not both shown. |
| Session.Step | potassium.c:139-226 | After quitting, nothing changes. The loop stops exactly on a quit key. A state change leaves the flags alone and shows play exactly for PLAYING. |
| Session.KeysRoute | potassium.c:143-181 | On a running, consistent player, "r" and "a" change the repeat mode as the three-valued mode selects repeat-single and repeat-all. Neither touches shuffle. "s" flips shuffle alone and its icon follows. Only Escape and q stop the loop. None of r, a and s touches the play or pause icon. Every other key, mapped or not, leaves the player unchanged, and the player stays consistent. |
| Session.StepPreserves | potassium.c:139-287 | Every key press and every state change keeps the player consistent. |
| Session.Run | potassium.c:139-182 | After a run of events, the main loop is still running exactly when it ran before and no event in the run was a quit key. |
| Session.RunPreserves | potassium.c:139-287 | Every run of events from a consistent player ends consistent. |
| Session.RunFromStart | potassium.c:290-333 | Suppose the library's initial repeat flags exclude each other. Then every run from start-up is consistent. |
| Session.QuitIsFinal | potassium.c:150-153 | Once the main loop has quit, later events change nothing. |
| Session.LastStateShows | potassium.c:202-211 | Take any run without a quit key that ends with a state change. Afterwards the play icon is shown exactly when that state is PLAYING, and the pause icon exactly when it is not. |
| TimeFormat.FormatHms | potassium.c:64-65 | `%d:%.2d:%.2d` has at least 7 characters: digits, colons and minus signs. A time with no negative field prints no minus sign. |
| TimeFormat.FormatHmsFields | potassium.c:64-65 | Within bounds, the text splits at its colons into three fields. The hours are their digits without padding. The minutes and seconds are exactly two digits that denote their values. |
| TimeFormat.FormatPosition | potassium.c:63-66 | The time line has at least 17 characters, using only digits, '-', ':', '/' and space. When no field of either time is negative it has no minus sign. When both times are within bounds it is shorter than the 22-byte buffer. |
| TimeFormat.ParsePositionOfFormat | potassium.c:64-66 | All six numbers can be read back from the printed time line, for any values. |
| TimeFormat.FormatPositionFits | potassium.c:63-66 | Suppose hours are below 1000 and minutes and seconds below 60. Then the time line has exactly 15 characters plus the digits of both hour counts, at most 21, and so fits the 22-byte buffer with its terminator. |
| TimeFormat.ThousandHoursOverflows | potassium.c:63-66 | The bound is tight. 1000 elapsed hours against a three-digit duration no longer fit. |
| TimeFormat.FormatHmsLength | potassium.c:65 | `%d:%.2d:%.2d` of a time within bounds is exactly 6 characters plus the hour digits, so 7 to 9 in all. |
| Decimal.FormatInt | potassium.c:65 | `%.<p>d` has at least p characters. It starts with '-' exactly for a negative value, and every other character is a digit. Digits beyond the precision never start with '0', so zeros pad only up to p. |
| Decimal.FormatIntMagnitude | potassium.c:65 | The digits `%.<p>d` prints denote the magnitude of the value. |
| Decimal.ParseIntOfFormatInt | potassium.c:65 | For any precision of at least one, `%.<p>d` can be read back to the value. |
| Decimal.FormatUnsigned64 | potassium.c:349-351 | `%lu` of a 64-bit value prints 1 to 20 digits, with no leading zero unless the value is 0. |
| Decimal.FormatUnsigned64Value | potassium.c:349-351 | `%lu` of a 64-bit signed value prints the value plus 2^64 when it is negative, and the value itself otherwise. |
| Decimal.Atoi | potassium.c:374-377 | Text with no digit anywhere reads as 0. Text that starts with a digit reads as the value of its leading run of digits. |
| Decimal.AtoiOfParsed | potassium.c:374-377 | Whatever the strict reader accepts (an optional '-' and one or more digits), `atoi` reads as the same number, whatever non-digit text follows. |
| Decimal.AtoiOfPlus | potassium.c:374-377 | `atoi` accepts a leading '+': a plus sign and a run of digits read as the digits' value, whatever non-digit text follows. |
| Decimal.AtoiSkipsSpace | potassium.c:374-377 | `atoi` skips leading white space: any text reads as it does with that space removed. |
| Decimal.AtoiOfFormatInt | potassium.c:374 | `atoi` reads back what `%d` printed, whatever non-digit text follows. |
| Decimal.AtoiOfUnsigned64 | potassium.c:377 | `atoll` reads back what `%lu` printed for an offset that is not negative. |
| Decimal.DigitsFit | potassium.c:63-66 | A count has at most k digits exactly when it is below 10^k. |
| Text.Chomp | potassium.c:370-371 | `g_strchomp` keeps a prefix of its input that does not end in white space, and everything it removes is white space. Vertical tab does not count as white space, as in GLib. |
| Text.ChompOfPrefix | potassium.c:369-371 | Running `g_strchomp` on the buffer after the first read is the same as cutting the file's text at the computed end. |
| Text.HasSuffix | potassium.c:49 | `g_str_has_suffix` holds exactly when the suffix is no longer than the string and matches its last characters one by one. |
| Text.ChompLine | potassium.c:370-371 | `g_strchomp` of a line without trailing white space, plus its newline, gives the line back. |
| Checkpoint.WriteCheckpoint | potassium.c:337-358 | The file is unchanged unless the player is PLAYING. When PLAYING, the file is replaced by a record that starts with the name and a newline and ends with a newline. |
| Checkpoint.Serialize | potassium.c:349-351 | The record starts with the name and a newline, ends with a newline, and after the name holds only digits, minus signs and newlines. It is at least 5 characters longer than the name. |
| Checkpoint.WrittenLines | potassium.c:337-358 | For a playlist name without a newline, while PLAYING, the file holds exactly three newline-terminated lines. The first is the playlist name. The second reads back as the position. The third is all digits and denotes the offset's 64 bits as an unsigned number. |
| Checkpoint.LineEnd | potassium.c:369 | A read never passes a newline, the end of the file or the buffer limit. It stops at the first of them: right after the newline, at the end of the file, or at the limit. It makes progress whenever it can. |
| Checkpoint.Fgets | potassium.c:373-376 | At the end of the file, `fgets` reads nothing and the buffer keeps its contents. Otherwise the buffer holds 1 to size-1 characters starting at the stream position, and the stream moves past them. The read contains no newline except as its last character, and it ends at a newline, at the end of the file, or at size-1 characters. |
| Checkpoint.ReadBuffers | potassium.c:369-376 | Reading fails exactly for an empty file. Otherwise each buffer is shorter than the buffer size. The name is a prefix of the file with no newline and no trailing white space. |
| Checkpoint.Decode | potassium.c:370-384 | The name is kept as read. When a buffer, stripped of trailing white space, is a number to the strict reader, the index is that number minus one and the offset is that number. |
| Checkpoint.AtoiOfNumberLine | potassium.c:374-377 | `atoi` of a line reads the number the strict reader finds once trailing white space is stripped. |
| Checkpoint.ParseCheckpoint | potassium.c:367-377 | Reading fails exactly for an empty file. The playlist read back is a one-line prefix of the file, shorter than the buffer. |
| Checkpoint.ReadBuffersName | potassium.c:369-371 | The first read takes at most 511 characters. It contains no newline except as its last character, and it ends at a newline, at the end of the file, or at the limit. The name is `g_strchomp` of exactly what was read. |
| Checkpoint.ReadLines | potassium.c:369-377 | Suppose each of three lines fits the buffer and the first has no trailing white space. Then the buffers hold the first line without its newline, then the second and third lines with their newlines. |
| Checkpoint.OneLineFile | potassium.c:373-377 | In a file holding only the name line, the later reads hit end of file and leave the stripped name in the buffer. Track and offset are then parsed from the name. |
| Checkpoint.ReadCheckpointWith | potassium.c:360-385 | `read_checkpoint_data` with buffers of a given size. With no file the error is NoCheckpointFile, and with an empty file it is EmptyCheckpoint. Any other file is read. |
| Checkpoint.ReadCheckpoint | potassium.c:360-385 | If there is no file, the error is NoCheckpointFile. If the file is empty, the error is EmptyCheckpoint. Any other file is read. |
| Checkpoint.CheckpointRoundTrip | potassium.c:337-385 | A record written while PLAYING is read back as the same name, the written track, and the same offset. The track comes back as a 0-based index: the written 1-based position minus one. This needs a byte-string name that is one line with no trailing white space, an offset that is not negative, and a record that fits the 512 bytes of `data`. |
| Checkpoint.SizedRoundTrip | potassium.c:337-385 | With buffers larger than the record, the same round trip holds for a record of any length. |
| Checkpoint.ResumeAfterCheckpoint | potassium.c:369-384 | After a restart the player recreates the written playlist. It loads the name as an m3u list when it ends in ".m3u" and as a single URI otherwise. It then switches to the playlist and plays the written track (0-based index) from the written offset. |
| Checkpoint.LongNameOverflows | potassium.c:339-351 | A record whose name has 507 or more bytes does not fit `data[512]`. |
| Checkpoint.LongNameMisread | potassium.c:363-377 | If a record with a 511-byte name were written in full, it would read back with index -1, and the written position would be taken as the offset. |
| Checkpoint.GeneratePlaylist | potassium.c:44-53 | With a name, a playlist of that name is created first. Then a path ending in ".m3u" is loaded as an m3u list, and any other path as a single URI. |
| Checkpoint.ResumeCalls | potassium.c:369-384 | On resume the player makes four library calls in order. It creates the playlist. It adds the name to it as an m3u list when the name ends in ".m3u", and as a single URI otherwise. It switches to the playlist and plays the index at the offset. |

## Left out

- Drawing: Clutter actors, their names, sizes, positions and textures. The text widgets of `update_display` are also left out, including its progress percentage and track counter.
- The playback library itself: how it stores playlists, plays, seeks and reports positions. Its answers are parameters, and its commands are values.
- Timers and the main loop: the 500 ms display refresh, the one-second checkpoint tick, and the bus signal wiring in `main`. `Session` receives the events those produce as a list.
- Command-line handling in `main`: the choice between `generate_playlist(argv[1], argv[1])` and `read_checkpoint_data()`.
- The library's own mode changes, such as dropping repeat-single on a track change. `Session` assumes only the player's toggles change the flags.
- The file system: creating the temporary file, writing it, renaming it over the checkpoint, and closing it. The atomicity of the rename is also left out.
- Checkpoint.ReadCheckpoint: when `fopen` fails, the source goes on to read from a null stream, which is undefined behaviour. The model reports NoCheckpointFile instead.
- Checkpoint.ReadCheckpoint: when the first read of an empty file reads nothing, the buffer is uninitialised. The model reports EmptyCheckpoint instead.
- Checkpoint.WriteCheckpoint: produces the whole record even when it has 512 characters or more, so that it does not fit `data[512]` with its terminator. In the source `sprintf` then writes past the buffer.
- TimeFormat.FormatPosition: returns the whole time line even when it has 22 characters or more. That happens for 1000 or more elapsed hours against a three-digit duration (TimeFormat.ThousandHoursOverflows), and for negative fields. In the source `sprintf` then writes past the 22-byte `malloc` buffer, and `strcpy` past the 22-byte `time_info`. The model does not follow memory past a buffer.
- NUL bytes in the checkpoint file: the reader treats them as ordinary text. In the source `strdup` and `g_strchomp` stop the name at the first NUL. A written record never contains one, because a C string cannot.
- Decimal.Atoi: uses unbounded integers. Values outside `int` or `long long` are undefined in C and are not modelled.
- Decimal.FormatUnsigned64: models `%lu` only with a 64-bit `unsigned long`.
- Decimal.AtoiOfUnsigned64: covers only offsets that are not negative. A negative offset is written as a number above 2^63 that `atoll` cannot represent.
- Modes.ToggleRepeat: states icon agreement only when the flags start exclusive. Modes.ToggleRepeatNeedsExclusive shows why.

## Findings

| source | as written | input that shows it | evidently intended | confidence | as-written member | corrected member |
|---|---|---|---|---|---|---|
| potassium.c:339-351, 363-377 | The record is formatted with `sprintf` into `char data[512]`, and each line is read back with `fgets(data, 512, fp)`. Neither checks the length of the playlist name. | Any playlist name of 507 or more bytes overflows `data`. If a record with a 511-byte name is written in full, it reads back with track 0 (index -1), and the position is taken as the offset. | A buffer sized to the record on both sides, so that every record is read back as written. | not executed | Checkpoint.LongNameMisread | Checkpoint.SizedRoundTrip |

=== FILE: checkpoint.dfy ===
/**
  The checkpoint file that lets the player resume after a restart:
  write_checkpoint_data renders the active playlist's name, the 1-based
  playlist position and the stream offset in nanoseconds as three lines;
  read_checkpoint_data reads them back with fgets into a 512-byte buffer and
  resumes the written track, turning the 1-based position into a 0-based
  index. Only the file's text is modelled; each character stands for one
  byte, so every length and buffer limit counts bytes.
 */
module Checkpoint {
  import opened Wrappers
  import opened Decimal
  import opened Text
  import opened Engine

  /** Size of the buffer each line is formatted into and read into, terminator included. */
  const CheckpointBufferSize: nat := 512

  /** What write_checkpoint_data reads from the playback library. */
  datatype Snapshot = Snapshot(playlistName: string, position: int, offsetNs: int)

  /** What read_checkpoint_data hands to the playback library. */
  datatype Resume = Resume(playlist: string, index: int, offsetNs: int)

  datatype ReadError =
    | NoCheckpointFile   // fopen failed; the source goes on to read from a null stream
    | EmptyCheckpoint    // the first fgets read nothing; the source goes on with an unset buffer

  /** The values the library can report: a C string of bytes, an int position and a 64-bit offset. */
  predicate ValidSnapshot(s: Snapshot) {
    IsByteString(s.playlistName) && '\0' !in s.playlistName && IsInt32(s.position) && IsInt64(s.offsetNs)
  }

  /** Three newline-terminated lines. */
  function Lines(a: string, b: string, c: string): string {
    a + "\n" + b + "\n" + c + "\n"
  }

  /**
    "%s\n%d\n%lu\n": the name and a newline, then nothing but digits, minus
    signs and newlines, the last character a newline.
   */
  function Serialize(s: Snapshot): (r: string)
    requires ValidSnapshot(s)
    ensures |r| >= |s.playlistName| + 5
    ensures r[..|s.playlistName| + 1] == s.playlistName + "\n"
    ensures r[|r| - 1] == '\n'
    ensures forall i :: |s.playlistName| < i < |r| ==> IsDigit(r[i]) || r[i] == '-' || r[i] == '\n'
  {
    var a, b, c := s.playlistName, FormatInt(s.position, 1), FormatUnsigned64(s.offsetNs);
    var r := Lines(a, b, c);
    assert forall i :: 0 <= i < |b| ==> r[|a| + 1 + i] == b[i];
    assert forall i :: 0 <= i < |c| ==> r[|a| + |b| + 2 + i] == c[i];
    r
  }

  /**
    write_checkpoint_data: the checkpoint file after one timer tick. Nothing is
    written unless the player is PLAYING; otherwise the file is replaced by the
    snapshot's three lines.
   */
  function WriteCheckpoint(state: PlayerState, s: Snapshot, file: Option<string>): (r: Option<string>)
    requires ValidSnapshot(s)
    ensures state != Playing ==> r == file
    ensures state == Playing ==> r.Some? && |r.value| >= |s.playlistName| + 5
    ensures state == Playing ==> r.value[..|s.playlistName| + 1] == s.playlistName + "\n"
    ensures state == Playing ==> r.value[|r.value| - 1] == '\n'
  {
    if state != Playing then file else Some(Serialize(s))
  }

  /**
    Where fgets stops reading when it starts at `i`: just after the first
    newline, at the end of the text, or at `limit`, whichever comes first.
   */
  function LineEnd(s: string, i: nat, limit: nat): (k: nat)
    requires i <= |s| && i <= limit
    ensures i <= k <= |s| && k <= limit
    ensures i < |s| && i < limit ==> k > i
    ensures forall j :: i <= j < k - 1 ==> s[j] != '\n'
    ensures k == |s| || k == limit || s[k - 1] == '\n'
    decreases |s| - i
  {
    if i == |s| || i == limit then i
    else if s[i] == '\n' then i + 1
    else LineEnd(s, i + 1, limit)
  }

  /** The characters a buffer holds, as a stretch `s[lo..hi]` of the file's text. */
  datatype Span = Span(lo: nat, hi: nat)

  predicate SpanIn(s: string, b: Span) {
    b.lo <= b.hi <= |s|
  }

  function SpanText(s: string, b: Span): string
    requires SpanIn(s, b)
  {
    s[b.lo..b.hi]
  }

  /**
    One fgets(buffer, size, stream) call with the stream at `at`: the buffer
    afterwards and the new stream position. At end of file fgets reads
    nothing and the buffer keeps what it held.
   */
  function Fgets(s: string, at: nat, size: nat, buffer: Span): (r: (Span, nat))
    requires at <= |s| && size >= 2 && SpanIn(s, buffer)
    ensures SpanIn(s, r.0) && at <= r.1 <= |s|
    ensures at == |s| ==> r == (buffer, at)
    ensures at < |s| ==> r.0 == Span(at, r.1) && at < r.1 <= at + size - 1
    ensures at < |s| ==> forall j :: at <= j < r.1 - 1 ==> s[j] != '\n'
    ensures at < |s| ==> r.1 == |s| || r.1 == at + size - 1 || s[r.1 - 1] == '\n'
  {
    if at == |s| then (buffer, at)
    else
      var k := LineEnd(s, at, at + size - 1);
      (Span(at, k), k)
  }

  /** What the buffer held after each of the three reads. */
  datatype Buffers = Buffers(name: string, track: string, offset: string)

  /**
    The reading half of read_checkpoint_data on the file's text, with
    `size`-byte buffers. The first line is stripped in place of trailing
    white space; the same buffer is then read twice more.
   */
  function ReadBuffers(text: string, size: nat): (r: Result<Buffers, ReadError>)
    requires size >= 2
    ensures r.Err? <==> |text| == 0
    ensures r.Ok? ==> |r.value.name| < size && |r.value.track| < size && |r.value.offset| < size
    ensures r.Ok? ==> |r.value.name| <= |text| && r.value.name == text[..|r.value.name|] && '\n' !in r.value.name
    ensures r.Ok? ==> |r.value.name| == 0 || !IsGAsciiSpace(r.value.name[|r.value.name| - 1])
  {
    if |text| == 0 then Err(EmptyCheckpoint)
    else
      var first := LineEnd(text, 0, size - 1);
      var nameEnd := ChompEnd(text, first);
      assert forall j :: 0 <= j < nameEnd ==> text[..nameEnd][j] != '\n';
      var second := Fgets(text, first, size, Span(0, nameEnd));
      var third := Fgets(text, second.1, size, second.0);
      Ok(Buffers(text[..nameEnd], SpanText(text, second.0), SpanText(text, third.0)))
  }

  /**
    How the buffers are interpreted: the name as it stands, the track with
    atoi and the offset with atoll. The track read is 1-based and the resume
    index 0-based.
   */
  function Decode(b: Buffers): (r: Resume)
    ensures r.playlist == b.name
    ensures ParseInt(Chomp(b.track)).Some? ==> r.index == ParseInt(Chomp(b.track)).value - 1
    ensures ParseInt(Chomp(b.offset)).Some? ==> r.offsetNs == ParseInt(Chomp(b.offset)).value
  {
    AtoiOfNumberLine(b.track);
    AtoiOfNumberLine(b.offset);
    Resume(b.name, Atoi(b.track) - 1, Atoi(b.offset))
  }

  /** `atoi` of a line reads the number the strict reader finds once trailing white space is stripped. */
  lemma AtoiOfNumberLine(s: string)
    ensures ParseInt(Chomp(s)).Some? ==> Atoi(s) == ParseInt(Chomp(s)).value
  {
    var d := Chomp(s);
    if ParseInt(d).Some? {
      var rest := s[|d|..];
      assert s == d + rest;
      assert rest == [] || IsGAsciiSpace(rest[0]);
      AtoiOfParsed(d, rest);
    }
  }

  /** The read record: only a missing first line fails, and the name is one line that fits the buffer. */
  function ParseCheckpoint(text: string, size: nat): (r: Result<Resume, ReadError>)
    requires size >= 2
    ensures r.Err? <==> |text| == 0
    ensures r.Ok? ==> |r.value.playlist| < size && '\n' !in r.value.playlist
    ensures r.Ok? ==> |r.value.playlist| <= |text| && r.value.playlist == text[..|r.value.playlist|]
  {
    match ReadBuffers(text, size)
    case Err(e) => Err(e)
    case Ok(b) => Ok(Decode(b))
  }

  /** read_checkpoint_data on the checkpoint path, if a file is there, reading with `size`-byte buffers. */
  function ReadCheckpointWith(file: Option<string>, size: nat): (r: Result<Resume, ReadError>)
    requires size >= 2
    ensures file.None? ==> r == Err(NoCheckpointFile)
    ensures file.Some? && |file.value| == 0 ==> r == Err(EmptyCheckpoint)
    ensures file.Some? && |file.value| > 0 ==> r.Ok?
  {
    match file
    case None => Err(NoCheckpointFile)
    case Some(text) => ParseCheckpoint(text, size)
  }

  /** read_checkpoint_data as written, with the 512-byte buffer. */
  function ReadCheckpoint(file: Option<string>): (r: Result<Resume, ReadError>)
    ensures file.None? ==> r == Err(NoCheckpointFile)
    ensures file.Some? && |file.value| == 0 ==> r == Err(EmptyCheckpoint)
    ensures file.Some? && |file.value| > 0 ==> r.Ok?
  {
    ReadCheckpointWith(file, CheckpointBufferSize)
  }

  /**
    generate_playlist: with a playlist name a new playlist of that name is
    created first; then a file ending in ".m3u" is read as an m3u list and
    anything else is added as a single URI.
   */
  function GeneratePlaylist(source: string, name: Option<string>): (r: seq<EngineCall>)
    ensures |r| == if name.Some? then 2 else 1
    ensures name.Some? ==> r[0] == InitPlaylist(name.value)
    ensures HasSuffix(source, ".m3u") ==> r[|r| - 1] == AddM3uToPlaylist(source, name)
    ensures !HasSuffix(source, ".m3u") ==> r[|r| - 1] == AddUriToPlaylist(source, name)
  {
    (if name.Some? then [InitPlaylist(name.value)] else [])
    + (if HasSuffix(source, ".m3u") then [AddM3uToPlaylist(source, name)]
       else [AddUriToPlaylist(source, name)])
  }

  /** The playback library calls read_checkpoint_data makes once it has read the file. */
  function ResumeCalls(r: Resume): (calls: seq<EngineCall>)
    ensures |calls| == 4
    ensures calls[0] == InitPlaylist(r.playlist)
    ensures HasSuffix(r.playlist, ".m3u") ==> calls[1] == AddM3uToPlaylist(r.playlist, Some(r.playlist))
    ensures !HasSuffix(r.playlist, ".m3u") ==> calls[1] == AddUriToPlaylist(r.playlist, Some(r.playlist))
    ensures calls[2] == SwitchPlaylist(r.playlist)
    ensures calls[3] == PlayIndexAtPos(r.index, r.offsetNs)
  {
    GeneratePlaylist(r.playlist, Some(r.playlist)) + [SwitchPlaylist(r.playlist), PlayIndexAtPos(r.index, r.offsetNs)]
  }

  /** A name the reader gets back unchanged: one line, no trailing white space. */
  predicate ResumableName(name: string) {
    '\n' !in name && (|name| == 0 || !IsGAsciiSpace(name[|name| - 1]))
  }

  lemma {:induction false} LineEndAtNewline(s: string, i: nat, p: nat, limit: nat)
    requires i <= p < |s| && p < limit
    requires s[p] == '\n'
    requires forall j :: i <= j < p ==> s[j] != '\n'
    ensures LineEnd(s, i, limit) == p + 1
    decreases p - i
  {
    if i < p {
      LineEndAtNewline(s, i + 1, p, limit);
    }
  }

  lemma {:induction false} LineEndAtLimit(s: string, i: nat, limit: nat)
    requires i <= limit <= |s|
    requires forall j :: i <= j < limit ==> s[j] != '\n'
    ensures LineEnd(s, i, limit) == limit
    decreases limit - i
  {
    if i < limit {
      LineEndAtLimit(s, i + 1, limit);
    }
  }

  /** fgets started at a line's beginning stops right after its newline when the buffer is large enough. */
  lemma LineEndOfLine(pre: string, line: string, post: string, limit: nat)
    requires '\n' !in line && |pre| + |line| < limit
    ensures LineEnd(pre + line + "\n" + post, |pre|, limit) == |pre| + |line| + 1
  {
    var t := pre + line + "\n" + post;
    forall j | |pre| <= j < |pre| + |line|
      ensures t[j] != '\n'
    {
      assert t[j] == line[j - |pre|];
    }
    LineEndAtNewline(t, |pre|, |pre| + |line|, limit);
  }

  /**
    The name buffer is g_strchomp of what the first fgets read: at most
    `size - 1` characters, up to and including the first newline.
   */
  lemma ReadBuffersName(text: string, size: nat)
    requires size >= 2 && |text| > 0
    ensures var first := LineEnd(text, 0, size - 1);
            && 0 < first < size
            && (forall j :: 0 <= j < first - 1 ==> text[j] != '\n')
            && (first == |text| || first == size - 1 || text[first - 1] == '\n')
            && ReadBuffers(text, size).value.name == Chomp(text[..first])
  {
    ChompOfPrefix(text, LineEnd(text, 0, size - 1));
  }

  /** ReadBuffers in terms of where its three reads stop. */
  lemma ReadBuffersAt(text: string, size: nat, e1: nat, nameEnd: nat, e2: nat, e3: nat, b: Buffers)
    requires size >= 2 && 0 < e1 < |text| && e2 < |text|
    requires LineEnd(text, 0, size - 1) == e1 && ChompEnd(text, e1) == nameEnd
    requires LineEnd(text, e1, e1 + size - 1) == e2
    requires LineEnd(text, e2, e2 + size - 1) == e3
    requires b == Buffers(text[..nameEnd], text[e1..e2], text[e2..e3])
    ensures ReadBuffers(text, size) == Ok(b)
  {
    assert Fgets(text, e1, size, Span(0, nameEnd)) == (Span(e1, e2), e2);
  }

  /** Where the reads of `Lines(a, b, c)` stop when each line fits the buffer. */
  lemma LinesFirstEnd(a: string, b: string, c: string, size: nat)
    requires '\n' !in a && |a| + 1 < size
    ensures LineEnd(Lines(a, b, c), 0, size - 1) == |a| + 1
  {
    assert Lines(a, b, c) == [] + a + "\n" + (b + "\n" + c + "\n");
    LineEndOfLine([], a, b + "\n" + c + "\n", size - 1);
  }

  lemma LinesSecondEnd(a: string, b: string, c: string, size: nat)
    requires '\n' !in b && |b| + 1 < size
    ensures LineEnd(Lines(a, b, c), |a| + 1, |a| + size) == |a| + |b| + 2
  {
    assert Lines(a, b, c) == (a + "\n") + b + "\n" + (c + "\n");
    LineEndOfLine(a + "\n", b, c + "\n", |a| + size);
  }

  lemma LinesThirdEnd(a: string, b: string, c: string, size: nat)
    requires '\n' !in c && |c| + 1 < size
    ensures LineEnd(Lines(a, b, c), |a| + |b| + 2, |a| + |b| + 1 + size) == |Lines(a, b, c)|
  {
    assert Lines(a, b, c) == (a + "\n" + b + "\n") + c + "\n" + [];
    LineEndOfLine(a + "\n" + b + "\n", c, [], |a| + |b| + 1 + size);
  }

  /** Stripping the first line of `Lines(a, b, c)` removes just its newline. */
  lemma LinesChomp(a: string, b: string, c: string)
    requires |a| == 0 || !IsGAsciiSpace(a[|a| - 1])
    ensures ChompEnd(Lines(a, b, c), |a| + 1) == |a|
  {
    var t := Lines(a, b, c);
    assert t[|a|] == '\n';
    assert |a| > 0 ==> t[|a| - 1] == a[|a| - 1];
  }

  lemma LinesSlices(a: string, b: string, c: string)
    ensures var t := Lines(a, b, c);
            && t[..|a|] == a
            && t[|a| + 1..|a| + |b| + 2] == b + "\n"
            && t[|a| + |b| + 2..|t|] == c + "\n"
  {
  }

  /** Three lines that each fit the buffer are read one per fgets. */
  lemma ReadLines(a: string, b: string, c: string, size: nat)
    requires size >= 2
    requires '\n' !in a && '\n' !in b && '\n' !in c
    requires |a| + 1 < size && |b| + 1 < size && |c| + 1 < size
    requires |a| == 0 || !IsGAsciiSpace(a[|a| - 1])
    ensures ReadBuffers(Lines(a, b, c), size) == Ok(Buffers(a, b + "\n", c + "\n"))
  {
    LinesFirstEnd(a, b, c, size);
    LinesSecondEnd(a, b, c, size);
    LinesThirdEnd(a, b, c, size);
    LinesChomp(a, b, c);
    ReadLinesAt(a, b, c, size);
  }

  /** The buffers of `Lines(a, b, c)` once the three reads are known to stop at the line ends. */
  lemma ReadLinesAt(a: string, b: string, c: string, size: nat)
    requires size >= 2
    requires var t := Lines(a, b, c);
             && LineEnd(t, 0, size - 1) == |a| + 1 && ChompEnd(t, |a| + 1) == |a|
             && LineEnd(t, |a| + 1, |a| + size) == |a| + |b| + 2
             && LineEnd(t, |a| + |b| + 2, |a| + |b| + 1 + size) == |t|
    ensures ReadBuffers(Lines(a, b, c), size) == Ok(Buffers(a, b + "\n", c + "\n"))
  {
    var t := Lines(a, b, c);
    var bufs := Buffers(a, b + "\n", c + "\n");
    assert bufs == Buffers(t[..|a|], t[|a| + 1..|a| + |b| + 2], t[|a| + |b| + 2..|t|]) by {
      LinesSlices(a, b, c);
    }
    ReadBuffersAt(t, size, |a| + 1, |a|, |a| + |b| + 2, |t|, bufs);
  }

  /**
    A file holding only the name line: both later reads hit end of file and
    leave the stripped name in the buffer, so track and offset are parsed
    from the name.
   */
  lemma OneLineFile(a: string, size: nat)
    requires size >= 2 && '\n' !in a && |a| + 1 < size
    requires |a| == 0 || !IsGAsciiSpace(a[|a| - 1])
    ensures ReadBuffers(a + "\n", size) == Ok(Buffers(a, a, a))
  {
    var t := a + "\n";
    assert t == [] + a + "\n" + [];
    LineEndOfLine([], a, [], size - 1);
    assert t[|a|] == '\n';
    assert |a| > 0 ==> t[|a| - 1] == a[|a| - 1];
    assert ChompEnd(t, |t|) == |a|;
    ReadBuffersAtEnd(t, size, |a|);
    assert t[..|a|] == a;
  }

  /** ReadBuffers when the first read reaches the end of the file. */
  lemma ReadBuffersAtEnd(text: string, size: nat, nameEnd: nat)
    requires size >= 2 && |text| > 0
    requires LineEnd(text, 0, size - 1) == |text| && ChompEnd(text, |text|) == nameEnd
    ensures ReadBuffers(text, size) == Ok(Buffers(text[..nameEnd], text[..nameEnd], text[..nameEnd]))
  {
    assert text[0..nameEnd] == text[..nameEnd];
  }

  lemma NoNewlineInNumbers(s: Snapshot)
    requires ValidSnapshot(s)
    ensures '\n' !in FormatInt(s.position, 1) && '\n' !in FormatUnsigned64(s.offsetNs)
  {
    var o := FormatUnsigned64(s.offsetNs);
    FormatIntAvoids(s.position, 1, '\n');
    forall i | 0 <= i < |o|
      ensures o[i] != '\n'
    {
      assert IsDigit(o[i]);
    }
  }

  /** Splitting three lines at their newlines gives the three lines and an empty rest. */
  lemma SplitLines(a: string, b: string, c: string)
    requires '\n' !in a && '\n' !in b && '\n' !in c
    ensures Split(Lines(a, b, c), '\n') == [a, b, c, ""]
  {
    assert Lines(a, b, c) == a + ['\n'] + (b + ['\n'] + (c + ['\n'] + []));
    SplitFirst(a, '\n', b + ['\n'] + (c + ['\n'] + []));
    SplitFirst(b, '\n', c + ['\n'] + []);
    SplitFirst(c, '\n', []);
    SplitPlain([], '\n');
  }

  /**
    While PLAYING the file holds exactly three newline-terminated lines: the
    playlist name, the position in decimal, and the offset's 64 bits read as
    an unsigned decimal number.
   */
  lemma WrittenLines(s: Snapshot, previous: Option<string>)
    requires ValidSnapshot(s) && '\n' !in s.playlistName
    ensures var w := WriteCheckpoint(Playing, s, previous);
            && w.Some?
            && var lines := Split(w.value, '\n');
            && |lines| == 4
            && lines[0] == s.playlistName
            && ParseInt(lines[1]) == Some(s.position)
            && AllDigits(lines[2])
            && Value(lines[2]) == (if s.offsetNs < 0 then s.offsetNs + TwoTo64 else s.offsetNs)
            && lines[3] == ""
  {
    SerializedLines(s);
    ParseIntOfFormatInt(s.position, 1);
    FormatUnsigned64Value(s.offsetNs);
  }

  lemma SerializedLines(s: Snapshot)
    requires ValidSnapshot(s) && '\n' !in s.playlistName
    ensures var lines := Split(Serialize(s), '\n');
            && |lines| == 4
            && lines[0] == s.playlistName
            && lines[1] == FormatInt(s.position, 1)
            && lines[2] == FormatUnsigned64(s.offsetNs)
            && lines[3] == ""
  {
    NoNewlineInNumbers(s);
    SplitLines(s.playlistName, FormatInt(s.position, 1), FormatUnsigned64(s.offsetNs));
  }

  /** Reading the record's buffers back with buffers larger than each line. */
  lemma ReadSerialized(s: Snapshot, size: nat)
    requires ValidSnapshot(s) && ResumableName(s.playlistName)
    requires size >= 2 && |Serialize(s)| < size
    ensures ReadBuffers(Serialize(s), size)
            == Ok(Buffers(s.playlistName, FormatInt(s.position, 1) + "\n", FormatUnsigned64(s.offsetNs) + "\n"))
  {
    NoNewlineInNumbers(s);
    ReadLines(s.playlistName, FormatInt(s.position, 1), FormatUnsigned64(s.offsetNs), size);
  }

  /** atoi and atoll undo "%d\n" and "%lu\n", the latter for offsets that are not negative. */
  lemma DecodeSerialized(s: Snapshot)
    requires ValidSnapshot(s) && 0 <= s.offsetNs
    ensures Decode(Buffers(s.playlistName, FormatInt(s.position, 1) + "\n", FormatUnsigned64(s.offsetNs) + "\n"))
            == Resume(s.playlistName, s.position - 1, s.offsetNs)
  {
    AtoiOfFormatInt(s.position, "\n");
    AtoiOfUnsigned64(s.offsetNs, "\n");
  }

  /** With buffers larger than each line, reading back the record recovers the snapshot. */
  lemma ParseSerialized(s: Snapshot, size: nat)
    requires ValidSnapshot(s) && ResumableName(s.playlistName)
    requires 0 <= s.offsetNs
    requires size >= 2 && |Serialize(s)| < size
    ensures ParseCheckpoint(Serialize(s), size) == Ok(Resume(s.playlistName, s.position - 1, s.offsetNs))
  {
    ReadSerialized(s, size);
    DecodeSerialized(s);
  }

  /** The record fits `data[512]`, terminator included; otherwise sprintf writes past its end. */
  predicate FitsBuffer(s: Snapshot)
    requires ValidSnapshot(s)
  {
    |Serialize(s)| < CheckpointBufferSize
  }

  /**
    A checkpoint written while PLAYING is read back as the same playlist name,
    the written track (its 1-based position as a 0-based index), and the same
    offset, provided the
    name is one line without trailing white space, the offset is not negative
    and the record fits the 512-byte buffer.
   */
  lemma CheckpointRoundTrip(s: Snapshot, previous: Option<string>)
    requires ValidSnapshot(s) && ResumableName(s.playlistName)
    requires 0 <= s.offsetNs
    requires FitsBuffer(s)
    ensures ReadCheckpoint(WriteCheckpoint(Playing, s, previous))
            == Ok(Resume(s.playlistName, s.position - 1, s.offsetNs))
  {
    SizedRoundTrip(s, previous, CheckpointBufferSize);
  }

  /**
    With buffers larger than the record, a checkpoint written while PLAYING
    is read back as the same playlist name, the written track as a 0-based
    index, and the same offset, for a record of any length.
   */
  lemma SizedRoundTrip(s: Snapshot, previous: Option<string>, size: nat)
    requires ValidSnapshot(s) && ResumableName(s.playlistName)
    requires 0 <= s.offsetNs
    requires size >= 2 && |Serialize(s)| < size
    ensures ReadCheckpointWith(WriteCheckpoint(Playing, s, previous), size)
            == Ok(Resume(s.playlistName, s.position - 1, s.offsetNs))
  {
    ParseSerialized(s, size);
  }

  /**
    After a restart the player recreates the written playlist, loading the
    name as an m3u list when it ends in ".m3u" and as a single URI otherwise,
    switches to it and plays the written track from the written offset.
   */
  lemma ResumeAfterCheckpoint(s: Snapshot, previous: Option<string>)
    requires ValidSnapshot(s) && ResumableName(s.playlistName)
    requires 0 <= s.offsetNs && FitsBuffer(s)
    ensures var r := ReadCheckpoint(WriteCheckpoint(Playing, s, previous));
            && r.Ok?
            && ResumeCalls(r.value)[0] == InitPlaylist(s.playlistName)
            && ResumeCalls(r.value)[1] == (if HasSuffix(s.playlistName, ".m3u")
                                           then AddM3uToPlaylist(s.playlistName, Some(s.playlistName))
                                           else AddUriToPlaylist(s.playlistName, Some(s.playlistName)))
            && ResumeCalls(r.value)[2] == SwitchPlaylist(s.playlistName)
            && ResumeCalls(r.value)[3] == PlayIndexAtPos(s.position - 1, s.offsetNs)
  {
    CheckpointRoundTrip(s, previous);
  }

  /** Every record whose name has 507 characters or more overflows `data[512]`. */
  lemma LongNameOverflows(s: Snapshot)
    requires ValidSnapshot(s) && |s.playlistName| >= CheckpointBufferSize - 5
    ensures !FitsBuffer(s)
  {
    assert |FormatInt(s.position, 1)| >= 1;
    assert |FormatUnsigned64(s.offsetNs)| >= 1;
  }

  /** The buffers after reading a record whose name is exactly 511 characters long. */
  lemma LongNameBuffers(name: string, p: string, o: string)
    requires |name| == CheckpointBufferSize - 1 && ResumableName(name)
    requires '\n' !in p && |p| + 1 < CheckpointBufferSize
    ensures ReadBuffers(Lines(name, p, o), CheckpointBufferSize) == Ok(Buffers(name, "\n", p + "\n"))
  {
    var t := Lines(name, p, o);
    forall j | 0 <= j < 511
      ensures t[j] != '\n'
    {
      assert t[j] == name[j];
    }
    LineEndAtLimit(t, 0, 511);
    assert t[510] == name[510];
    assert ChompEnd(t, 511) == 511;
    assert t[511] == '\n';
    LineEndAtNewline(t, 511, 511, 1022);
    assert t == (name + "\n") + p + "\n" + (o + "\n");
    LineEndOfLine(name + "\n", p, o + "\n", 1023);
    assert t[..511] == name;
    assert t[511..512] == "\n";
    assert t[512..513 + |p|] == p + "\n";
    ReadBuffersAt(t, CheckpointBufferSize, 511, 511, 512, 513 + |p|, Buffers(name, "\n", p + "\n"));
  }

  /** An empty line reads as 0. */
  lemma AtoiOfNewline()
    ensures Atoi("\n") == 0
  {
    assert SpaceEnd("\n", 0) == 1;
  }

  /** The buffers of a 511-character name, decoded. */
  lemma DecodeLongName(s: Snapshot)
    requires ValidSnapshot(s)
    ensures Decode(Buffers(s.playlistName, "\n", FormatInt(s.position, 1) + "\n"))
            == Resume(s.playlistName, -1, s.position)
  {
    AtoiOfNewline();
    AtoiOfFormatInt(s.position, "\n");
  }

  /**
    Were the whole record written, a playlist name of 511 characters would
    fill the first read by itself: the newline after it is read as the track
    (0, so index -1) and the written position is taken as the offset.
   */
  lemma LongNameMisread(s: Snapshot, previous: Option<string>)
    requires ValidSnapshot(s) && ResumableName(s.playlistName)
    requires |s.playlistName| == CheckpointBufferSize - 1
    ensures ReadCheckpoint(WriteCheckpoint(Playing, s, previous))
            == Ok(Resume(s.playlistName, -1, s.position))
  {
    var p := FormatInt(s.position, 1);
    NoNewlineInNumbers(s);
    assert |p| + 1 < CheckpointBufferSize by {
      DigitsFit(Abs(s.position), 10);
    }
    var b := Buffers(s.playlistName, "\n", p + "\n");
    LongNameBuffers(s.playlistName, p, FormatUnsigned64(s.offsetNs));
    ParseOfBuffers(Serialize(s), CheckpointBufferSize, b);
    DecodeLongName(s);
  }

  lemma ParseOfBuffers(text: string, size: nat, b: Buffers)
    requires size >= 2 && ReadBuffers(text, size) == Ok(b)
    ensures ParseCheckpoint(text, size) == Ok(Decode(b))
  {
  }
}

=== FILE: decimal.dfy ===
/**
  Decimal text as the C library writes and reads it: printf's `%d`, `%.2d`
  and `%lu` conversions, and the `atoi`/`atoll` readers.
 */
module Decimal {
  import opened Wrappers

  const TwoTo64: nat := 0x1_0000_0000_0000_0000

  predicate IsDigit(c: char) {
    '0' <= c <= '9'
  }

  predicate AllDigits(s: string) {
    forall i :: 0 <= i < |s| ==> IsDigit(s[i])
  }

  function DigitValue(c: char): nat
    requires IsDigit(c)
  {
    c as int - '0' as int
  }

  function DigitChar(d: nat): (c: char)
    requires d < 10
    ensures IsDigit(c) && DigitValue(c) == d
  {
    ('0' as int + d) as char
  }

  function Abs(n: int): nat {
    if n < 0 then -n else n
  }

  function Pow10(k: nat): (r: nat)
    ensures r >= 1
  {
    if k == 0 then 1 else 10 * Pow10(k - 1)
  }

  /** The shortest decimal representation of `n`, most significant digit first. */
  function Digits(n: nat): (r: string)
    ensures 1 <= |r|
    ensures AllDigits(r)
    ensures |r| > 1 ==> r[0] != '0'
    ensures r[0] == '0' <==> n == 0
  {
    if n < 10 then [DigitChar(n)] else Digits(n / 10) + [DigitChar(n % 10)]
  }

  /** The number a string of decimal digits denotes. */
  function Value(s: string): nat
    requires AllDigits(s)
  {
    if s == [] then 0 else 10 * Value(s[..|s| - 1]) + DigitValue(s[|s| - 1])
  }

  /** Reading back the digits of `n` gives `n`. */
  lemma {:induction false} ValueOfDigits(n: nat)
    ensures Value(Digits(n)) == n
  {
    if n >= 10 {
      var s := Digits(n);
      assert s[..|s| - 1] == Digits(n / 10);
      ValueOfDigits(n / 10);
    }
  }

  /** `n` has at most `k` digits exactly when it is below 10^k. */
  lemma {:induction false} DigitsFit(n: nat, k: nat)
    requires k >= 1
    ensures |Digits(n)| <= k <==> n < Pow10(k)
  {
    if k > 1 {
      assert Pow10(k - 1) >= 1;
    }
    if n >= 10 && k > 1 {
      DigitsFit(n / 10, k - 1);
      assert |Digits(n)| == |Digits(n / 10)| + 1;
      assert n / 10 < Pow10(k - 1) <==> n < 10 * Pow10(k - 1);
    } else if n >= 10 {
      assert |Digits(n)| == |Digits(n / 10)| + 1;
    } else if k > 1 {
      assert Pow10(k) >= 10 by {
        assert Pow10(k - 1) >= 1;
      }
    }
  }

  /** A run of `k` '0' characters. */
  function Zeros(k: nat): (r: string)
    ensures |r| == k
    ensures forall i :: 0 <= i < k ==> r[i] == '0'
  {
    if k == 0 then "" else Zeros(k - 1) + "0"
  }

  /** `s` padded on the left with '0' up to `width` characters. */
  function ZeroPad(s: string, width: nat): (r: string)
    ensures |r| == if |s| < width then width else |s|
    ensures r == Zeros(|r| - |s|) + s
  {
    if |s| < width then Zeros(width - |s|) + s else s
  }

  /**
    printf's `%.<precision>d`: a minus sign for a negative value, then the
    magnitude's digits with leading zeros up to `precision` digits. A zero
    printed with precision zero is the empty string. Plain `%d` is precision 1.
   */
  function FormatInt(n: int, precision: nat): (r: string)
    ensures |r| >= precision
    ensures n < 0 <==> |r| > 0 && r[0] == '-'
    ensures forall i :: (if n < 0 then 1 else 0) <= i < |r| ==> IsDigit(r[i])
    ensures var sign := if n < 0 then 1 else 0; |r| > sign + precision ==> r[sign] != '0'
  {
    if n == 0 && precision == 0 then ""
    else
      var body := ZeroPad(Digits(Abs(n)), precision);
      if n < 0 then
        var r := "-" + body;
        assert forall i :: 1 <= i < |r| ==> r[i] == body[i - 1];
        r
      else body
  }

  /** The range of a C `int`. */
  predicate IsInt32(n: int) {
    -0x8000_0000 <= n < 0x8000_0000
  }

  /** The range of a signed 64-bit integer. */
  predicate IsInt64(n: int) {
    -0x8000_0000_0000_0000 <= n < 0x8000_0000_0000_0000
  }

  /** printf's `%lu` applied to a signed 64-bit value: its two's-complement bits read as unsigned. */
  function FormatUnsigned64(x: int): (r: string)
    requires IsInt64(x)
    ensures AllDigits(r) && 1 <= |r| <= 20
    ensures |r| > 1 ==> r[0] != '0'
  {
    var u := if x < 0 then x + TwoTo64 else x;
    assert Pow10(20) > TwoTo64 by {
      assert Pow10(5) == 100_000;
      assert Pow10(10) == 10_000_000_000;
      assert Pow10(15) == 1_000_000_000_000_000;
      assert Pow10(20) == 100_000_000_000_000_000_000;
    }
    DigitsFit(u, 20);
    Digits(u)
  }

  /** `%lu` prints a negative value as that value plus 2^64, and any other as itself. */
  lemma FormatUnsigned64Value(x: int)
    requires IsInt64(x)
    ensures x < 0 ==> Value(FormatUnsigned64(x)) == x + TwoTo64
    ensures 0 <= x ==> Value(FormatUnsigned64(x)) == x
  {
    ValueOfDigits(if x < 0 then x + TwoTo64 else x);
  }

  /** `s` holds only digits and characters of `others`. */
  predicate DigitsAnd(s: string, others: string) {
    forall i :: 0 <= i < |s| ==> IsDigit(s[i]) || s[i] in others
  }

  lemma DigitsAndConcat(a: string, b: string, others: string)
    requires DigitsAnd(a, others) && DigitsAnd(b, others)
    ensures DigitsAnd(a + b, others)
  {
    assert forall i :: |a| <= i < |a + b| ==> (a + b)[i] == b[i - |a|];
  }

  /** `%.<p>d` prints digits and a minus sign only for a negative value. */
  lemma FormatIntChars(n: int, precision: nat, others: string)
    requires '-' in others || 0 <= n
    ensures DigitsAnd(FormatInt(n, precision), others)
  {
  }

  /** A character that is neither a digit nor listed in `others` does not occur. */
  lemma DigitsAndAvoids(s: string, others: string, c: char)
    requires DigitsAnd(s, others) && !IsDigit(c) && c !in others
    ensures c !in s
  {
  }

  /** `%.<p>d` never prints a character other than a digit or '-'. */
  lemma FormatIntAvoids(n: int, precision: nat, c: char)
    requires !IsDigit(c) && c != '-'
    ensures c !in FormatInt(n, precision)
  {
    FormatIntChars(n, precision, "-");
    DigitsAndAvoids(FormatInt(n, precision), "-", c);
  }

  /** The C locale's isspace. */
  predicate IsCSpace(c: char) {
    c == ' ' || 9 <= c as int <= 13
  }

  /** The index of the first character at or after `i` that is not white space. */
  function SpaceEnd(s: string, i: nat): (k: nat)
    requires i <= |s|
    ensures i <= k <= |s|
    ensures k == |s| || !IsCSpace(s[k])
    decreases |s| - i
  {
    if i < |s| && IsCSpace(s[i]) then SpaceEnd(s, i + 1) else i
  }

  function SkipSpace(s: string): (r: string)
    ensures |r| <= |s| && r == s[|s| - |r|..]
    ensures |r| == 0 || !IsCSpace(r[0])
  {
    s[SpaceEnd(s, 0)..]
  }

  /** The index of the first character at or after `i` that is not a digit. */
  function DigitEnd(s: string, i: nat): (k: nat)
    requires i <= |s|
    ensures i <= k <= |s|
    ensures k == |s| || !IsDigit(s[k])
    ensures forall j :: i <= j < k ==> IsDigit(s[j])
    decreases |s| - i
  {
    if i < |s| && IsDigit(s[i]) then DigitEnd(s, i + 1) else i
  }

  /** The longest prefix of `s` made of decimal digits. */
  function DigitPrefix(s: string): (r: string)
    ensures |r| <= |s| && r == s[..|r|]
    ensures AllDigits(r)
    ensures |r| == |s| || !IsDigit(s[|r|])
  {
    s[..DigitEnd(s, 0)]
  }

  /**
    `atoi` and `atoll`: skip leading white space, take an optional sign, then
    the longest run of digits; no digits reads as 0. The model's integers are
    unbounded; C leaves an out-of-range value undefined.
   */
  function Atoi(s: string): (r: int)
    ensures (forall i :: 0 <= i < |s| ==> !IsDigit(s[i])) ==> r == 0
    ensures |s| > 0 && IsDigit(s[0]) ==> r == Value(DigitPrefix(s))
  {
    var t := SkipSpace(s);
    if |t| > 0 && t[0] == '-' then -(Value(DigitPrefix(t[1..])) as int)
    else if |t| > 0 && t[0] == '+' then Value(DigitPrefix(t[1..]))
    else Value(DigitPrefix(t))
  }

  /** A strict reader for `FormatInt` output: optional '-', then one or more digits. */
  function ParseInt(s: string): (r: Option<int>)
    ensures r.Some? ==> |s| > 0
  {
    if |s| > 1 && s[0] == '-' && AllDigits(s[1..]) then Some(-(Value(s[1..]) as int))
    else if |s| > 0 && AllDigits(s) then Some(Value(s))
    else None
  }

  lemma {:induction false} DigitEndOfDigits(a: string, b: string, i: nat)
    requires AllDigits(a) && i <= |a|
    requires b == [] || !IsDigit(b[0])
    ensures DigitEnd(a + b, i) == |a|
    decreases |a| - i
  {
    if i < |a| {
      DigitEndOfDigits(a, b, i + 1);
    } else if b != [] {
      assert (a + b)[i] == b[0];
    }
  }

  lemma DigitPrefixOfDigits(a: string, b: string)
    requires AllDigits(a)
    requires b == [] || !IsDigit(b[0])
    ensures DigitPrefix(a + b) == a
  {
    DigitEndOfDigits(a, b, 0);
    assert (a + b)[..|a|] == a;
  }

  lemma {:induction false} ValueOfZeros(z: string)
    requires forall i :: 0 <= i < |z| ==> z[i] == '0'
    ensures AllDigits(z) && Value(z) == 0
  {
    if |z| > 0 {
      ValueOfZeros(z[..|z| - 1]);
    }
  }

  /** Leading zeros do not change a digit string's value. */
  lemma {:induction false} ValueIgnoresLeadingZeros(z: string, s: string)
    requires forall i :: 0 <= i < |z| ==> z[i] == '0'
    requires AllDigits(s)
    ensures AllDigits(z + s) && Value(z + s) == Value(s)
  {
    ValueOfZeros(z);
    if |s| == 0 {
      assert z + s == z;
    } else {
      var t := z + s;
      assert t[..|t| - 1] == z + s[..|s| - 1];
      assert t[|t| - 1] == s[|s| - 1];
      ValueIgnoresLeadingZeros(z, s[..|s| - 1]);
    }
  }

  /** The digits `FormatInt` prints denote the magnitude of the value. */
  lemma FormatIntMagnitude(n: int, precision: nat)
    requires n != 0 || precision > 0
    ensures var r := FormatInt(n, precision);
            var body := if n < 0 then r[1..] else r;
            AllDigits(body) && |body| >= 1 && Value(body) == Abs(n)
  {
    var d := Digits(Abs(n));
    var p := ZeroPad(d, precision);
    ValueOfDigits(Abs(n));
    ValueIgnoresLeadingZeros(p[..|p| - |d|], d);
    assert p == p[..|p| - |d|] + d;
    assert AllDigits(p) && Value(p) == Abs(n);
    var r := FormatInt(n, precision);
    if n < 0 {
      assert r == "-" + p;
      assert r[1..] == p;
    } else {
      assert r == p;
    }
  }

  /** `atoi` reads a leading run of digits as its value. */
  lemma AtoiOfDigits(d: string, rest: string)
    requires AllDigits(d) && |d| >= 1
    requires rest == [] || !IsDigit(rest[0])
    ensures Atoi(d + rest) == Value(d)
  {
    var t := d + rest;
    assert IsDigit(t[0]);
    assert SpaceEnd(t, 0) == 0;
    assert SkipSpace(t) == t;
    DigitPrefixOfDigits(d, rest);
  }

  /** `atoi` reads a minus sign and a run of digits as the negated value. */
  lemma AtoiOfNegative(d: string, rest: string)
    requires AllDigits(d) && |d| >= 1
    requires rest == [] || !IsDigit(rest[0])
    ensures Atoi("-" + d + rest) == -(Value(d) as int)
  {
    var t := "-" + d + rest;
    assert t[0] == '-';
    assert SpaceEnd(t, 0) == 0;
    assert SkipSpace(t) == t;
    assert t[1..] == d + rest;
    DigitPrefixOfDigits(d, rest);
  }

  /** `atoi` reads a plus sign and a run of digits as the value. */
  lemma AtoiOfPlus(d: string, rest: string)
    requires AllDigits(d) && |d| >= 1
    requires rest == [] || !IsDigit(rest[0])
    ensures Atoi("+" + d + rest) == Value(d)
  {
    var t := "+" + d + rest;
    assert t[0] == '+';
    assert SpaceEnd(t, 0) == 0;
    assert SkipSpace(t) == t;
    assert t[1..] == d + rest;
    DigitPrefixOfDigits(d, rest);
  }

  /** `atoi` skips leading white space: the text reads as it does with that space removed. */
  lemma AtoiSkipsSpace(s: string)
    ensures Atoi(s) == Atoi(SkipSpace(s))
  {
    var t := SkipSpace(s);
    assert SpaceEnd(t, 0) == 0;
    assert SkipSpace(t) == t;
  }

  /** `atoi` reads back what `%d` printed, whatever non-digit text follows. */
  lemma AtoiOfFormatInt(n: int, rest: string)
    requires rest == [] || !IsDigit(rest[0])
    ensures Atoi(FormatInt(n, 1) + rest) == n
  {
    var r := FormatInt(n, 1);
    FormatIntMagnitude(n, 1);
    if n < 0 {
      assert r == "-" + r[1..];
      AtoiOfNegative(r[1..], rest);
    } else {
      AtoiOfDigits(r, rest);
    }
  }

  /** `atoi` reads back what `%lu` printed for a value that is not negative. */
  lemma AtoiOfUnsigned64(x: int, rest: string)
    requires IsInt64(x) && 0 <= x
    requires rest == [] || !IsDigit(rest[0])
    ensures Atoi(FormatUnsigned64(x) + rest) == x
  {
    FormatUnsigned64Value(x);
    AtoiOfDigits(FormatUnsigned64(x), rest);
  }

  /** `atoi` reads what the strict reader accepts as the same number, whatever non-digit text follows. */
  lemma AtoiOfParsed(d: string, rest: string)
    requires ParseInt(d).Some?
    requires rest == [] || !IsDigit(rest[0])
    ensures Atoi(d + rest) == ParseInt(d).value
  {
    if |d| > 1 && d[0] == '-' && AllDigits(d[1..]) {
      assert d == "-" + d[1..];
      AtoiOfNegative(d[1..], rest);
    } else {
      AtoiOfDigits(d, rest);
    }
  }

  /** The strict reader inverts `%.<precision>d` for any precision of at least one. */
  lemma ParseIntOfFormatInt(n: int, precision: nat)
    requires precision >= 1
    ensures ParseInt(FormatInt(n, precision)) == Some(n)
  {
    FormatIntMagnitude(n, precision);
  }
}

=== FILE: engine.dfy ===
/**
  The playback library (libmozart over GStreamer) as the player sees it:
  the pipeline states it reports and the calls the player makes into it.
  Its behaviour is outside this model; only the calls are recorded.
 */
module Engine {
  import opened Wrappers

  /** GStreamer's element states as reported by the player state query. */
  datatype PlayerState = VoidPending | Null | Ready | Paused | Playing

  /** A call the player makes into the playback library. */
  datatype EngineCall =
    | InitPlaylist(name: string)
    | AddM3uToPlaylist(file: string, playlist: Option<string>)
    | AddUriToPlaylist(uri: string, playlist: Option<string>)
    | SwitchPlaylist(name: string)
    | PlayIndexAtPos(index: int, offsetNs: int)
}

=== FILE: keys.dfy ===
/**
  input_events_cb: a keyboard event becomes at most one player command.
  Key symbols are the X keysym values Clutter reports.
 */
module KeyDispatch {
  import opened Wrappers

  const KeyEscape: nat := 0xff1b
  const KeyQ: nat := 0x71
  const KeyRight: nat := 0xff53
  const KeyLeft: nat := 0xff51
  const KeyDown: nat := 0xff54
  const KeySpace: nat := 0x20
  const KeyR: nat := 0x72
  const KeyA: nat := 0x61
  const KeyS: nat := 0x73
  const KeyPageUp: nat := 0xff55
  const KeyPageDown: nat := 0xff56

  /** An input event: a key press with its symbol, or anything else (a key release, a mouse event, ...). */
  datatype InputEvent = KeyPress(sym: nat) | OtherEvent

  datatype Command =
    | Quit
    | NextTrack
    | PrevTrack
    | ReplayTrack
    | PlayPause
    | ToggleRepeatSingle
    | ToggleRepeatAll
    | ToggleShuffle
    | SeekForward
    | SeekBackward

  /** The keys the player reacts to. */
  const MappedKeys: set<nat> :=
    {KeyEscape, KeyQ, KeyRight, KeyLeft, KeyDown, KeySpace, KeyR, KeyA, KeyS, KeyPageUp, KeyPageDown}

  function Dispatch(e: InputEvent): (r: Option<Command>)
    ensures e.OtherEvent? ==> r == None
    ensures e.KeyPress? ==> (r.Some? <==> e.sym in MappedKeys)
    ensures r == Some(Quit) <==> e == KeyPress(KeyEscape) || e == KeyPress(KeyQ)
  {
    match e
    case OtherEvent => None
    case KeyPress(sym) =>
      if sym == KeyEscape || sym == KeyQ then Some(Quit)
      else if sym == KeyRight then Some(NextTrack)
      else if sym == KeyLeft then Some(PrevTrack)
      else if sym == KeyDown then Some(ReplayTrack)
      else if sym == KeySpace then Some(PlayPause)
      else if sym == KeyR then Some(ToggleRepeatSingle)
      else if sym == KeyA then Some(ToggleRepeatAll)
      else if sym == KeyS then Some(ToggleShuffle)
      else if sym == KeyPageUp then Some(SeekForward)
      else if sym == KeyPageDown then Some(SeekBackward)
      else None
  }

  /** Apart from the two quit keys, no two keys share a command, and every command has a key. */
  lemma DispatchDistinct(a: nat, b: nat)
    ensures (Dispatch(KeyPress(a)).Some? && Dispatch(KeyPress(a)) == Dispatch(KeyPress(b))
             && Dispatch(KeyPress(a)) != Some(Quit)) ==> a == b
    ensures forall c: Command :: exists k :: k in MappedKeys && Dispatch(KeyPress(k)) == Some(c)
  {
    forall c: Command ensures exists k :: k in MappedKeys && Dispatch(KeyPress(k)) == Some(c) {
      var k := match c
        case Quit => KeyQ
        case NextTrack => KeyRight
        case PrevTrack => KeyLeft
        case ReplayTrack => KeyDown
        case PlayPause => KeySpace
        case ToggleRepeatSingle => KeyR
        case ToggleRepeatAll => KeyA
        case ToggleShuffle => KeyS
        case SeekForward => KeyPageUp
        case SeekBackward => KeyPageDown;
      assert Dispatch(KeyPress(k)) == Some(c);
    }
  }

  /** The key bindings as a table, one row per key. */
  const Bindings: seq<(nat, Command)> := [
    (KeyEscape, Quit), (KeyQ, Quit), (KeyRight, NextTrack), (KeyLeft, PrevTrack),
    (KeyDown, ReplayTrack), (KeySpace, PlayPause), (KeyR, ToggleRepeatSingle),
    (KeyA, ToggleRepeatAll), (KeyS, ToggleShuffle), (KeyPageUp, SeekForward),
    (KeyPageDown, SeekBackward)]

  /** A key press yields exactly the command its row in the table names, and unlisted keys yield none. */
  lemma DispatchMatchesBindings(k: nat, c: Command)
    ensures Dispatch(KeyPress(k)) == Some(c) <==> (k, c) in Bindings
    ensures Dispatch(KeyPress(k)).None? <==> forall j :: 0 <= j < |Bindings| ==> Bindings[j].0 != k
  {
    if Dispatch(KeyPress(k)).Some? {
      var d := Dispatch(KeyPress(k)).value;
      assert (k, d) in Bindings;
    }
  }
}

=== FILE: modes.dfy ===
/**
  The repeat and shuffle modes and the status icons that show them
  (toggle_repeat, toggle_shuffle, set_status_icons and the visibility set up
  by init_icons). The library keeps the modes as three independent flags; the
  player keeps repeat-single and repeat-all apart by hand, so their exclusion
  is an invariant the transitions preserve rather than a property of the type.
 */
module Modes {
  import opened Engine

  /** The library's mode flags. */
  datatype Flags = Flags(repeatSingle: bool, repeatAll: bool, shuffled: bool)

  /** Which status icons are shown. */
  datatype Icons = Icons(play: bool, pause: bool, repeatSingle: bool, repeatAll: bool, shuffle: bool)

  /** The "never both repeat modes" invariant. */
  predicate Exclusive(f: Flags) {
    !(f.repeatSingle && f.repeatAll)
  }

  /** The repeat and shuffle icons show exactly the modes that are on. */
  predicate IconsShowModes(f: Flags, i: Icons) {
    i.repeatSingle == f.repeatSingle && i.repeatAll == f.repeatAll && i.shuffle == f.shuffled
  }

  /**
    toggle_repeat with its `type` argument. Each library toggle flips its flag.
    For "single": if repeat-all is on it is turned off and repeat-single is
    flipped; else if repeat-single is on it is flipped off; else it is flipped
    on. "all" is the mirror image. Any other type changes nothing.
   */
  function ToggleRepeat(f: Flags, i: Icons, kind: string): (r: (Flags, Icons))
    ensures r.0.shuffled == f.shuffled
    ensures r.1.play == i.play && r.1.pause == i.pause && r.1.shuffle == i.shuffle
    ensures kind != "single" && kind != "all" ==> r == (f, i)
    ensures Exclusive(f) ==> Exclusive(r.0)
    ensures Exclusive(f) && (kind == "single" || kind == "all") ==>
              r.1.repeatSingle == r.0.repeatSingle && r.1.repeatAll == r.0.repeatAll
  {
    if kind == "single" then
      if f.repeatAll then
        (f.(repeatAll := false, repeatSingle := !f.repeatSingle),
         i.(repeatAll := false, repeatSingle := true))
      else if f.repeatSingle then
        (f.(repeatSingle := false), i.(repeatSingle := false, repeatAll := false))
      else
        (f.(repeatSingle := true), i.(repeatAll := false, repeatSingle := true))
    else if kind == "all" then
      if f.repeatSingle then
        (f.(repeatSingle := false, repeatAll := !f.repeatAll),
         i.(repeatSingle := false, repeatAll := true))
      else if f.repeatAll then
        (f.(repeatAll := false), i.(repeatAll := false, repeatSingle := false))
      else
        (f.(repeatAll := true), i.(repeatSingle := false, repeatAll := true))
    else
      (f, i)
  }

  /** toggle_shuffle: the shuffle flag flips and its icon follows the new flag. */
  function ToggleShuffle(f: Flags, i: Icons): (r: (Flags, Icons))
    ensures r.0.shuffled == !f.shuffled
    ensures r.1.shuffle == r.0.shuffled
    ensures r.0.repeatSingle == f.repeatSingle && r.0.repeatAll == f.repeatAll
    ensures r.1 == i.(shuffle := r.1.shuffle)
  {
    if f.shuffled then (f.(shuffled := false), i.(shuffle := false))
    else (f.(shuffled := true), i.(shuffle := true))
  }

  /**
    set_status_icons: play is shown while the pipeline is PLAYING and pause
    otherwise; each repeat icon whose flag is off is hidden.
   */
  function SetStatusIcons(state: PlayerState, f: Flags, i: Icons): (r: Icons)
    ensures r.play <==> state == Playing
    ensures r.play != r.pause
    ensures r.repeatSingle ==> i.repeatSingle
    ensures r.repeatAll ==> i.repeatAll
    ensures !f.repeatSingle ==> !r.repeatSingle
    ensures !f.repeatAll ==> !r.repeatAll
    ensures f.repeatSingle ==> r.repeatSingle == i.repeatSingle
    ensures f.repeatAll ==> r.repeatAll == i.repeatAll
    ensures r.shuffle == i.shuffle
  {
    var playing := state == Playing;
    Icons(
      play := playing,
      pause := !playing,
      repeatSingle := i.repeatSingle && f.repeatSingle,
      repeatAll := i.repeatAll && f.repeatAll,
      shuffle := i.shuffle)
  }

  /** init_icons: each mode icon starts shown exactly when its flag is on; play and pause start hidden. */
  function InitialIcons(f: Flags): (r: Icons)
    ensures IconsShowModes(f, r)
    ensures !r.play && !r.pause
  {
    Icons(play := false, pause := false, repeatSingle := f.repeatSingle,
          repeatAll := f.repeatAll, shuffle := f.shuffled)
  }

  /** Starting with both repeat flags on, "single" clears both yet leaves the repeat-single icon shown. */
  lemma ToggleRepeatNeedsExclusive(i: Icons)
    ensures var r := ToggleRepeat(Flags(true, true, false), i, "single");
            !r.0.repeatSingle && !r.0.repeatAll && r.1.repeatSingle
  {
  }

  /** A toggle keeps icons and flags in agreement. */
  lemma TogglesKeepIconsShowingModes(f: Flags, i: Icons, kind: string)
    requires Exclusive(f) && IconsShowModes(f, i)
    ensures var r := ToggleRepeat(f, i, kind); Exclusive(r.0) && IconsShowModes(r.0, r.1)
    ensures var r := ToggleShuffle(f, i); Exclusive(r.0) && IconsShowModes(r.0, r.1)
  {
  }

  /** The tri-state repeat mode: one value, so never both kinds at once. */
  datatype RepeatMode = NoRepeat | RepeatSingle | RepeatAll

  function ModeOf(f: Flags): RepeatMode
    requires Exclusive(f)
  {
    if f.repeatSingle then RepeatSingle else if f.repeatAll then RepeatAll else NoRepeat
  }

  /** The reference transitions: selecting a mode that is on turns repeat off, any other selection switches to it. */
  function Select(m: RepeatMode, wanted: RepeatMode): RepeatMode
    requires wanted != NoRepeat
  {
    if m == wanted then NoRepeat else wanted
  }

  /**
    On exclusive flags toggle_repeat is the tri-state machine: "single"
    selects RepeatSingle, "all" selects RepeatAll, and both repeat icons show
    exactly the new mode.
   */
  lemma ToggleRepeatRefinesModes(f: Flags, i: Icons)
    requires Exclusive(f)
    ensures var r := ToggleRepeat(f, i, "single");
            ModeOf(r.0) == Select(ModeOf(f), RepeatSingle)
            && r.1.repeatSingle == (ModeOf(r.0) == RepeatSingle)
            && r.1.repeatAll == (ModeOf(r.0) == RepeatAll)
    ensures var r := ToggleRepeat(f, i, "all");
            ModeOf(r.0) == Select(ModeOf(f), RepeatAll)
            && r.1.repeatSingle == (ModeOf(r.0) == RepeatSingle)
            && r.1.repeatAll == (ModeOf(r.0) == RepeatAll)
  {
  }

  /** "single" from repeat-all gives repeat-single alone; "single" twice from no repeat comes back to no repeat. */
  lemma ToggleRepeatScenarios(f: Flags, i: Icons)
    ensures f.repeatAll && !f.repeatSingle ==>
              var r := ToggleRepeat(f, i, "single");
              r.0 == f.(repeatSingle := true, repeatAll := false)
              && r.1.repeatSingle && !r.1.repeatAll
    ensures f.repeatSingle && !f.repeatAll ==>
              var r := ToggleRepeat(f, i, "all");
              r.0 == f.(repeatSingle := false, repeatAll := true)
              && r.1.repeatAll && !r.1.repeatSingle
    ensures !f.repeatSingle && !f.repeatAll ==>
              var r := ToggleRepeat(f, i, "single");
              var r2 := ToggleRepeat(r.0, r.1, "single");
              r2.0 == f && !r2.1.repeatSingle && !r2.1.repeatAll
    ensures !f.repeatSingle && !f.repeatAll ==>
              var r := ToggleRepeat(f, i, "all");
              var r2 := ToggleRepeat(r.0, r.1, "all");
              r2.0 == f && !r2.1.repeatSingle && !r2.1.repeatAll
  {
  }

  /** Toggling shuffle twice restores the flags and the icons. */
  lemma ToggleShuffleTwice(f: Flags, i: Icons)
    requires i.shuffle == f.shuffled
    ensures var r := ToggleShuffle(f, i); ToggleShuffle(r.0, r.1) == (f, i)
  {
  }
}

=== FILE: session.dfy ===
/**
  The player's reactions over a run: key presses go through input_events_cb,
  pipeline state changes reported on the bus go through set_status_icons, and
  the icons start as init_icons leaves them. The invariant is that the repeat
  modes never overlap, the mode icons show the modes, and play and pause are
  never shown together.
 */
module Session {
  import opened Wrappers
  import opened Engine
  import opened Modes
  import opened KeyDispatch

  /** The part of the player the model follows: the mode flags, the icons and whether the main loop runs. */
  datatype Ui = Ui(flags: Flags, icons: Icons, running: bool)

  datatype SessionEvent =
    | Input(event: InputEvent)           // delivered to input_events_cb
    | StateChanged(state: PlayerState)   // a bus message; set_status_icons runs

  /** A key press input_events_cb answers with clutter_main_quit. */
  predicate IsQuit(ev: SessionEvent) {
    ev.Input? && Dispatch(ev.event) == Some(Quit)
  }

  predicate Consistent(u: Ui) {
    Exclusive(u.flags) && IconsShowModes(u.flags, u.icons) && !(u.icons.play && u.icons.pause)
  }

  /** The player right after start-up, before any event, on the library's initial flags. */
  function Start(f: Flags): (u: Ui)
    requires Exclusive(f)
    ensures Consistent(u) && u.running
    ensures u.flags == f
  {
    Ui(f, InitialIcons(f), true)
  }

  /**
    One event. Once the main loop has quit nothing happens. The quit keys stop
    it; "r", "a" and "s" toggle the modes; other commands go to the library
    and leave this state alone; a state change updates the icons.
   */
  function Step(u: Ui, ev: SessionEvent): (r: Ui)
    ensures !u.running ==> r == u
    ensures u.running && !r.running <==> u.running && IsQuit(ev)
    ensures ev.StateChanged? ==> r.flags == u.flags
    ensures ev.StateChanged? && u.running ==> (r.icons.play <==> ev.state == Playing)
  {
    if !u.running then u
    else
      match ev
      case StateChanged(state) => u.(icons := SetStatusIcons(state, u.flags, u.icons))
      case Input(e) =>
        match Dispatch(e)
        case None => u
        case Some(Quit) => u.(running := false)
        case Some(ToggleRepeatSingle) =>
          var t := ToggleRepeat(u.flags, u.icons, "single");
          u.(flags := t.0, icons := t.1)
        case Some(ToggleRepeatAll) =>
          var t := ToggleRepeat(u.flags, u.icons, "all");
          u.(flags := t.0, icons := t.1)
        case Some(ToggleShuffle) =>
          var t := Modes.ToggleShuffle(u.flags, u.icons);
          u.(flags := t.0, icons := t.1)
        case Some(_) => u
  }

  /** Every event keeps the player consistent. */
  lemma StepPreserves(u: Ui, ev: SessionEvent)
    requires Consistent(u)
    ensures Consistent(Step(u, ev))
  {
    if u.running && ev.Input? {
      TogglesKeepIconsShowingModes(u.flags, u.icons, "single");
      TogglesKeepIconsShowingModes(u.flags, u.icons, "all");
    }
  }

  /**
    What each key does to a running, consistent player: "r" and "a" select
    repeat-single and repeat-all as the three-valued repeat mode does, "s"
    flips shuffle alone, and every key other than these and the quit keys
    leaves the player as it was.
   */
  lemma KeysRoute(u: Ui, k: nat)
    requires Consistent(u) && u.running
    ensures var r := Step(u, Input(KeyPress(k)));
            && Consistent(r) && r.running == (k != KeyEscape && k != KeyQ)
            && (k == KeyR ==> ModeOf(r.flags) == Select(ModeOf(u.flags), RepeatSingle) && r.flags.shuffled == u.flags.shuffled)
            && (k == KeyA ==> ModeOf(r.flags) == Select(ModeOf(u.flags), RepeatAll) && r.flags.shuffled == u.flags.shuffled)
            && (k == KeyS ==> r.flags == u.flags.(shuffled := !u.flags.shuffled) && r.icons.shuffle == r.flags.shuffled)
            && (k in {KeyR, KeyA, KeyS} ==> r.icons.play == u.icons.play && r.icons.pause == u.icons.pause)
            && (k !in {KeyEscape, KeyQ, KeyR, KeyA, KeyS} ==> r == u)
  {
    StepPreserves(u, Input(KeyPress(k)));
    ToggleRepeatRefinesModes(u.flags, u.icons);
  }

  /** A run of events, in order. The main loop still runs afterwards exactly when it ran before and no event was a quit key. */
  function Run(u: Ui, evs: seq<SessionEvent>): (r: Ui)
    ensures r.running <==> u.running && forall j :: 0 <= j < |evs| ==> !IsQuit(evs[j])
    decreases |evs|
  {
    if |evs| == 0 then u
    else
      assert forall j :: 1 <= j < |evs| ==> evs[1..][j - 1] == evs[j];
      Run(Step(u, evs[0]), evs[1..])
  }

  /** Any run from a consistent player ends consistent. */
  lemma {:induction false} RunPreserves(u: Ui, evs: seq<SessionEvent>)
    requires Consistent(u)
    ensures Consistent(Run(u, evs))
    decreases |evs|
  {
    if |evs| > 0 {
      StepPreserves(u, evs[0]);
      RunPreserves(Step(u, evs[0]), evs[1..]);
    }
  }

  /** Once the main loop has quit, no later event changes anything. */
  lemma {:induction false} QuitIsFinal(u: Ui, evs: seq<SessionEvent>)
    requires !u.running
    ensures Run(u, evs) == u
    decreases |evs|
  {
    if |evs| > 0 {
      QuitIsFinal(Step(u, evs[0]), evs[1..]);
    }
  }

  /** After a run ending in a state change, the play icon is shown exactly when that state is PLAYING. */
  lemma {:induction false} LastStateShows(u: Ui, evs: seq<SessionEvent>, state: PlayerState)
    requires u.running
    requires forall j :: 0 <= j < |evs| ==> !IsQuit(evs[j])
    ensures var r := Run(u, evs + [StateChanged(state)]);
            r.running && (r.icons.play <==> state == Playing) && r.icons.pause == !r.icons.play
    decreases |evs|
  {
    if |evs| == 0 {
      assert Run(u, [StateChanged(state)]) == Step(u, StateChanged(state));
    } else {
      assert (evs + [StateChanged(state)])[1..] == evs[1..] + [StateChanged(state)];
      LastStateShows(Step(u, evs[0]), evs[1..], state);
    }
  }

  /** From start-up, every run is consistent. */
  lemma RunFromStart(f: Flags, evs: seq<SessionEvent>)
    requires Exclusive(f)
    ensures Consistent(Run(Start(f), evs))
  {
    RunPreserves(Start(f), evs);
  }
}

=== FILE: text.dfy ===
/** String helpers from GLib and libc that the player relies on. */
module Text {

  /** GLib's g_ascii_isspace: space, tab, newline, form feed and carriage return (not vertical tab). */
  predicate IsGAsciiSpace(c: char) {
    c == ' ' || c == '\t' || c == '\n' || c as int == 12 || c == '\r'
  }

  /** Where the text of `s[..k]` ends once trailing white space is dropped. */
  function ChompEnd(s: string, k: nat): (e: nat)
    requires k <= |s|
    ensures e <= k
    ensures e == 0 || !IsGAsciiSpace(s[e - 1])
    ensures forall i :: e <= i < k ==> IsGAsciiSpace(s[i])
  {
    if k > 0 && IsGAsciiSpace(s[k - 1]) then ChompEnd(s, k - 1) else k
  }

  /** g_strchomp: the string with its trailing white space removed. */
  function Chomp(s: string): (r: string)
    ensures |r| <= |s| && r == s[..|r|]
    ensures |r| == 0 || !IsGAsciiSpace(r[|r| - 1])
    ensures forall i :: |r| <= i < |s| ==> IsGAsciiSpace(s[i])
  {
    s[..ChompEnd(s, |s|)]
  }

  /** Trimming in place inside a longer text: the end only looks at `s[..j]`. */
  lemma {:induction false} ChompEndOfPrefix(s: string, k: nat, j: nat)
    requires j <= k <= |s|
    ensures ChompEnd(s[..k], j) == ChompEnd(s, j)
    decreases j
  {
    if j > 0 {
      assert s[..k][j - 1] == s[j - 1];
      ChompEndOfPrefix(s, k, j - 1);
    }
  }

  /** Chomping the first `k` characters of a text is cutting the text at `ChompEnd(s, k)`. */
  lemma ChompOfPrefix(s: string, k: nat)
    requires k <= |s|
    ensures Chomp(s[..k]) == s[..ChompEnd(s, k)]
  {
    ChompEndOfPrefix(s, k, k);
  }

  /** g_str_has_suffix: the last characters of `s` are `suffix`. */
  function HasSuffix(s: string, suffix: string): (r: bool)
    ensures r <==> |suffix| <= |s| && forall i :: 0 <= i < |suffix| ==> s[|s| - |suffix| + i] == suffix[i]
  {
    |suffix| <= |s| && s[|s| - |suffix|..] == suffix
  }

  /**
    A C string's bytes: every character stands for one byte of the encoded
    text, so a length counts bytes.
   */
  predicate IsByteString(s: string) {
    forall i :: 0 <= i < |s| ==> s[i] as int < 256
  }

  /** The pieces of `s` between occurrences of `sep`. */
  function Split(s: string, sep: char): (r: seq<string>)
    ensures |r| >= 1
    ensures forall i :: 0 <= i < |r| ==> sep !in r[i]
  {
    if |s| == 0 then [""]
    else
      var rest := Split(s[1..], sep);
      if s[0] == sep then [""] + rest else [[s[0]] + rest[0]] + rest[1..]
  }

  /** Stripping a string that has no trailing white space of its own, plus a newline, gives the string back. */
  lemma ChompLine(s: string)
    requires |s| == 0 || !IsGAsciiSpace(s[|s| - 1])
    ensures Chomp(s + "\n") == s
  {
    var t := s + "\n";
    assert ChompEnd(t, |t|) == |s|;
    assert t[..|s|] == s;
  }

  lemma {:induction false} SplitPlain(a: string, sep: char)
    requires sep !in a
    ensures Split(a, sep) == [a]
  {
    if |a| > 0 {
      SplitPlain(a[1..], sep);
      assert [a[0]] + a[1..] == a;
    }
  }

  /** Splitting text whose first piece holds no separator yields that piece first. */
  lemma {:induction false} SplitFirst(a: string, sep: char, b: string)
    requires sep !in a
    ensures Split(a + [sep] + b, sep) == [a] + Split(b, sep)
  {
    var t := a + [sep] + b;
    if |a| == 0 {
      assert t[1..] == b;
    } else {
      assert t[1..] == a[1..] + [sep] + b;
      SplitFirst(a[1..], sep, b);
      assert [a[0]] + a[1..] == a;
    }
  }

  /** Three separator-free pieces joined by the separator split back into those pieces. */
  lemma SplitThree(a: string, b: string, c: string, sep: char)
    requires sep !in a && sep !in b && sep !in c
    ensures Split(a + [sep] + b + [sep] + c, sep) == [a, b, c]
  {
    var tail := b + [sep] + c;
    assert a + [sep] + b + [sep] + c == a + [sep] + tail;
    SplitFirst(a, sep, tail);
    SplitFirst(b, sep, c);
    SplitPlain(c, sep);
    assert Split(tail, sep) == [b, c];
  }
}

=== FILE: timeformat.dfy ===
/**
  get_position: the elapsed and total time of the stream rendered as
  "%d:%.2d:%.2d / %d:%.2d:%.2d" into a 22-byte buffer.
 */
module TimeFormat {
  import opened Wrappers
  import opened Decimal
  import opened Text

  /** Hours, minutes and seconds as the playback library splits a stream time. */
  datatype Hms = Hms(hours: int, minutes: int, seconds: int)

  /** Size of the buffer the text is printed into, terminator included. */
  const TimeBufferSize: nat := 22

  /** A time whose fields the buffer was sized for. */
  predicate Displayable(t: Hms) {
    0 <= t.hours < 1000 && 0 <= t.minutes < 60 && 0 <= t.seconds < 60
  }

  /** No field is negative. */
  predicate NonNegative(t: Hms) {
    0 <= t.hours && 0 <= t.minutes && 0 <= t.seconds
  }

  /** "%d:%.2d:%.2d": digits, colons and, for negative fields only, minus signs. */
  function FormatHms(t: Hms): (r: string)
    ensures |r| >= 7
    ensures DigitsAnd(r, ":-")
    ensures NonNegative(t) ==> DigitsAnd(r, ":")
  {
    var h, m, s := FormatInt(t.hours, 1), FormatInt(t.minutes, 2), FormatInt(t.seconds, 2);
    var others := if NonNegative(t) then ":" else ":-";
    FormatIntChars(t.hours, 1, others);
    FormatIntChars(t.minutes, 2, others);
    FormatIntChars(t.seconds, 2, others);
    DigitsAndConcat(h, ":", others);
    DigitsAndConcat(h + ":", m, others);
    DigitsAndConcat(h + ":" + m, ":", others);
    DigitsAndConcat(h + ":" + m + ":", s, others);
    assert NonNegative(t) ==> DigitsAnd(h + ":" + m + ":" + s, ":-");
    h + ":" + m + ":" + s
  }

  /** The time line: elapsed time, " / ", total time. */
  function FormatPosition(position: Hms, duration: Hms): (r: string)
    ensures |r| >= 17
    ensures DigitsAnd(r, ":-/ ")
    ensures NonNegative(position) && NonNegative(duration) ==> DigitsAnd(r, ":/ ")
    ensures Displayable(position) && Displayable(duration) ==> |r| < TimeBufferSize
  {
    var a, b := FormatHms(position), FormatHms(duration);
    var others := if NonNegative(position) && NonNegative(duration) then ":/ " else ":-/ ";
    assert DigitsAnd(a, others) && DigitsAnd(b, others);
    DigitsAndConcat(a, " / ", others);
    DigitsAndConcat(a + " / ", b, others);
    assert NonNegative(position) && NonNegative(duration) ==> DigitsAnd(a + " / " + b, ":-/ ");
    if Displayable(position) && Displayable(duration) then
      FormatHmsLength(position);
      FormatHmsLength(duration);
      a + " / " + b
    else a + " / " + b
  }

  /** Reads back an H:MM:SS field. */
  function ParseHms(s: string): Option<Hms> {
    var p := Split(s, ':');
    if |p| != 3 then None
    else match (ParseInt(p[0]), ParseInt(p[1]), ParseInt(p[2]))
      case (Some(h), Some(m), Some(sec)) => Some(Hms(h, m, sec))
      case _ => None
  }

  /** Reads back a whole time line. */
  function ParsePosition(s: string): Option<(Hms, Hms)> {
    var p := Split(s, ' ');
    if |p| != 3 || p[1] != "/" then None
    else match (ParseHms(p[0]), ParseHms(p[2]))
      case (Some(a), Some(b)) => Some((a, b))
      case _ => None
  }

  lemma FormatIntPlain(n: int, precision: nat)
    ensures ':' !in FormatInt(n, precision) && ' ' !in FormatInt(n, precision)
  {
    FormatIntAvoids(n, precision, ':');
    FormatIntAvoids(n, precision, ' ');
  }

  lemma FormatHmsPlain(t: Hms)
    ensures ' ' !in FormatHms(t)
  {
    FormatIntPlain(t.hours, 1);
    FormatIntPlain(t.minutes, 2);
    FormatIntPlain(t.seconds, 2);
  }

  lemma ParseHmsOfFormat(t: Hms)
    ensures ParseHms(FormatHms(t)) == Some(t)
  {
    var a, b, c := FormatInt(t.hours, 1), FormatInt(t.minutes, 2), FormatInt(t.seconds, 2);
    FormatIntPlain(t.hours, 1);
    FormatIntPlain(t.minutes, 2);
    FormatIntPlain(t.seconds, 2);
    assert FormatHms(t) == a + [':'] + b + [':'] + c;
    SplitThree(a, b, c, ':');
    ParseIntOfFormatInt(t.hours, 1);
    ParseIntOfFormatInt(t.minutes, 2);
    ParseIntOfFormatInt(t.seconds, 2);
  }

  lemma ParsePositionOfPieces(a: string, b: string, x: Hms, y: Hms)
    requires ' ' !in a && ' ' !in b
    requires ParseHms(a) == Some(x) && ParseHms(b) == Some(y)
    ensures ParsePosition(a + " / " + b) == Some((x, y))
  {
    assert a + " / " + b == a + [' '] + "/" + [' '] + b;
    SplitThree(a, "/", b, ' ');
  }

  /** Every field of both times can be recovered from the text. */
  lemma ParsePositionOfFormat(position: Hms, duration: Hms)
    ensures ParsePosition(FormatPosition(position, duration)) == Some((position, duration))
  {
    ParseHmsOfFormat(position);
    ParseHmsOfFormat(duration);
    FormatHmsPlain(position);
    FormatHmsPlain(duration);
    ParsePositionOfPieces(FormatHms(position), FormatHms(duration), position, duration);
  }

  /**
    Within bounds the hours print without padding and the minutes and
    seconds as exactly two digits each.
   */
  lemma FormatHmsFields(t: Hms)
    requires Displayable(t)
    ensures var p := Split(FormatHms(t), ':');
            && |p| == 3
            && p[0] == Digits(t.hours)
            && |p[1]| == 2 && AllDigits(p[1]) && Value(p[1]) == t.minutes
            && |p[2]| == 2 && AllDigits(p[2]) && Value(p[2]) == t.seconds
  {
    var a, b, c := FormatInt(t.hours, 1), FormatInt(t.minutes, 2), FormatInt(t.seconds, 2);
    FormatIntPlain(t.hours, 1);
    FormatIntPlain(t.minutes, 2);
    FormatIntPlain(t.seconds, 2);
    assert FormatHms(t) == a + [':'] + b + [':'] + c;
    SplitThree(a, b, c, ':');
    DigitsFit(t.minutes, 2);
    DigitsFit(t.seconds, 2);
    FormatIntMagnitude(t.minutes, 2);
    FormatIntMagnitude(t.seconds, 2);
  }

  lemma FormatHmsLength(t: Hms)
    requires Displayable(t)
    ensures 7 <= |FormatHms(t)| <= 9
    ensures |FormatHms(t)| == |Digits(t.hours)| + 6
  {
    DigitsFit(t.hours, 3);
    DigitsFit(t.minutes, 2);
    DigitsFit(t.seconds, 2);
  }

  /**
    Hours below 1000 and minutes and seconds below 60 fit the 22-byte buffer
    with its terminator: at most 21 characters, minutes and seconds always
    two digits.
   */
  lemma FormatPositionFits(position: Hms, duration: Hms)
    requires Displayable(position) && Displayable(duration)
    ensures |FormatPosition(position, duration)| < TimeBufferSize
    ensures |FormatPosition(position, duration)| ==
              |Digits(position.hours)| + |Digits(duration.hours)| + 15
  {
    FormatHmsLength(position);
    FormatHmsLength(duration);
  }

  /** The bound is tight: a thousand hours of elapsed time leaves no room for the terminator. */
  lemma ThousandHoursOverflows(duration: Hms)
    requires Displayable(duration) && duration.hours >= 100
    ensures |FormatPosition(Hms(1000, 0, 0), duration)| >= TimeBufferSize
  {
    FormatHmsLength(duration);
    DigitsFit(1000, 3);
    DigitsFit(duration.hours, 2);
    assert |FormatHms(Hms(1000, 0, 0))| == |Digits(1000)| + 6;
  }
}

=== FILE: wrappers.dfy ===
/** Option and Result, the failure-carrying datatypes the rest of the model uses. */
module Wrappers {

  datatype Option<+T> = None | Some(value: T)

  datatype Result<+R, +E> = Ok(value: R) | Err(error: E)
}
